=== FILE: README.md ===
# Nuki access-log dashboard: the transformation pipeline

`streamlit_app.py` is a Streamlit page that loads a Nuki smart-lock access
log exported as a tab-separated CSV. It keeps six columns and uses the
trigger where the member name is missing. It then filters the log to a
picked date range, offers a second filter on one column and value, and
charts two aggregates: accesses per member name and accesses per local day.
This project models that pipeline in Dafny as pure functions over a
sequence of rows. It proves what each stage computes, its error cases and
how the stages relate.

Modules, in pipeline order:

- `Results`: the missing cell (`Option`, pandas NaN), `Result` and the
  exceptions the page can raise.
- `LexOrder`: Python's `str` order (`Less`, `LessEq`). Code points are
  compared left to right, and a proper prefix sorts first. Dafny's own `<`
  on sequences means "proper prefix", so this order is defined here.
- `Calendar`: `datetime.date` (years 1-9999), the one-day step
  `date + timedelta(days=1)` and `isoformat()`.
- `Seqs`: boolean-mask selection (`df[mask]`), `Series.unique()`,
  `list.remove` and counting.
- `LogTable`: the row record, the column projection and the name fallback.
- `Filters`: the default bounds, the normalised bounds, the date-range
  filter and the column/value filter.
- `Aggregate`: `groupby(...).count()` and the two totals of each chart.
- `Pipeline`: the stages chained as `main()` chains them.

Every cell is a string or missing. The date filter compares the raw
timestamp strings with two ISO dates (`YYYY-MM-DD`, the `full-date`
production of section 5.6 of RFC 3339). This relies on the string-sorting
property of section 5.1 of RFC 3339. The lemmas in `Filters` show that the
comparison selects whole calendar days when every timestamp starts with
its ISO date followed by a time part, whatever the separator (`T` or a
space).

Notes on the code's behaviour:

- `total_number_of_actions` sums the `action` counts of the grouped frame.
  That is the number of rows whose key and action are both present, which
  can be less than the row count of the table.
- pandas lists groups in sorted key order. The model lists them in
  first-seen order and claims no order.
- The fallback replaces only missing (NaN) names. An empty CSV cell arrives
  as NaN, so in practice an empty name is also replaced.
- When the picked "to" day is before the "from" day, a row is still kept
  if its date string is exactly the bare ISO "from" date. This happens
  only when "to" is the day before "from". No timestamp with a time part
  is kept (`Filters.InvertedPickKeepsNoStamp`).
- The "to" comparison uses `<=` against the ISO form of the next day, so
  the range is not half-open. A date string that is exactly the bare next
  day, such as "2025-02-01" for a "to" pick of 2025-01-31, is also kept
  (`Filters.BareNextDayKept`). Timestamps with a time part on the next day
  are not kept.
- The source raises no error for an unknown filter column, because the
  selectbox offers only the non-date columns. The model answers any other
  column with `InvalidColumn`.
- A picked value of NaN (which `unique()` offers) matches no row, because
  NaN is unequal to everything.

## Model

| member | source | states |
|---|---|---|
| LexOrder.Total | streamlit_app.py:29 | any two strings are equal or one sorts strictly before the other, so `>=` and `<=` on the date column are decided for every pair |
| LexOrder.Transitive | streamlit_app.py:29 | string order is transitive |
| LexOrder.Asymmetric | streamlit_app.py:29 | no two strings each sort before the other |
| LexOrder.LessEqIffNotGreater | streamlit_app.py:29 | `a <= b` holds exactly when `b < a` fails |
| LexOrder.PrefixLess | streamlit_app.py:29 | a date sorts strictly before every timestamp that extends it |
| LexOrder.AppendKeepsLess | streamlit_app.py:29 | two equal-length strings that differ keep their order whatever suffixes follow them |
| LexOrder.CommonPrefix | streamlit_app.py:29 | a shared prefix does not change how two strings compare |
| Calendar.NextDay | streamlit_app.py:28 | adding one day gives a valid date strictly later than its input; it overflows exactly at 9999-12-31 |
| Calendar.NextDayIsSuccessor | streamlit_app.py:28 | no valid date lies strictly between a date and the next day |
| Calendar.NextDayOrdinal | streamlit_app.py:28 | the next day has ordinal one greater, as Python computes `date + timedelta(days=1)`; overflow happens exactly at the largest ordinal 3652059 |
| Calendar.OrdinalStep | streamlit_app.py:28 | below the last date, adding one day raises the ordinal by exactly one, across month and year ends |
| Calendar.MaxOrdinalOnlyAtMaxDate | streamlit_app.py:28 | the largest ordinal 3652059 belongs to 9999-12-31 and to no other valid date |
| Calendar.YearLength | streamlit_app.py:28 | a year has 366 days when it is a leap year and 365 otherwise |
| Calendar.Pad | streamlit_app.py:25 | zero-padding yields exactly `w` decimal digits |
| Calendar.PadValue | streamlit_app.py:25 | reading the padded digits back gives the number |
| Calendar.PadLess | streamlit_app.py:25-29 | padded numbers of equal width sort as strings in numeric order |
| Calendar.Iso | streamlit_app.py:25 | `isoformat()` yields ten characters: digits with `-` at positions 4 and 7 |
| Calendar.IsoFields | streamlit_app.py:25 | the year, month and day fields of the ISO string read back as the date's year, month and day |
| Calendar.IsoMonotone | streamlit_app.py:25-29 | an earlier date has a smaller ISO string |
| Calendar.IsoOrder | streamlit_app.py:25-29 | chronological order and string order of ISO dates coincide, in both directions |
| Seqs.Filter | streamlit_app.py:29 | a mask selection keeps no more rows than it is given and keeps a row exactly when the row is in the table and satisfies the mask |
| Seqs.MaskPositions | streamlit_app.py:29 | the positions where the mask is true, strictly increasing, each in range and satisfying the mask, none missing |
| Seqs.FilterSelectsMaskPositions | streamlit_app.py:29 | the k-th selected row is the row at the k-th true position of the mask |
| Seqs.FilterAppend | streamlit_app.py:29 | selecting from a concatenation is concatenating the selections |
| Seqs.FilterIdempotent | streamlit_app.py:29 | selecting twice with the same mask predicate is selecting once |
| Seqs.FilterKeepsAll | streamlit_app.py:29 | a mask true on every row returns the table unchanged |
| Seqs.FilterCongruent | streamlit_app.py:29 | masks that agree on every row select the same rows |
| Seqs.Unique | streamlit_app.py:49 | `unique()` lists each value of the column once, and only values of the column |
| Seqs.RemoveFirst | streamlit_app.py:47 | `list.remove` drops one occurrence of the value and keeps everything else |
| LogTable.IndexOf | streamlit_app.py:61 | a column is looked up at its first position in the header |
| LogTable.Project | streamlit_app.py:61 | the projection keeps one row per record with each kept column's cell from that column. When any of the six columns is absent it fails, naming exactly the absent ones |
| LogTable.FillName | streamlit_app.py:62-63 | a present name is kept, a missing name becomes the trigger, all other fields are unchanged, and row count and order are preserved |
| LogTable.FillNamePresence | streamlit_app.py:62-63 | after the fallback a name is missing exactly when both name and trigger were missing |
| LogTable.FillNameIdempotent | streamlit_app.py:63 | applying the fallback twice is applying it once |
| Filters.DefaultDates | streamlit_app.py:20 | the defaults are the last and first rows' dates; an empty table raises instead |
| Filters.DefaultDatesEnclose | streamlit_app.py:20 | on a newest-first table the default "from" sorts at or below every row's date and the default "to" at or above |
| Filters.NormalizeBounds | streamlit_app.py:25-28 | "from" is the picked date in ISO form; "to" is the ISO form of the next calendar day (a 10-character string sorting after the picked "to" date); picking 9999-12-31 as "to" overflows |
| Filters.UpperBoundIsNextDay | streamlit_app.py:27-28 | no ISO date sorts strictly between the picked "to" date and the upper bound |
| Filters.UpperBoundOrdinal | streamlit_app.py:27-28 | the upper bound is the ISO form of the valid date whose CPython ordinal is one past the picked "to" date, i.e. `to_date + timedelta(days=1)` |
| Filters.FilterByDate | streamlit_app.py:29 | a row is kept exactly when it is in the table, its date is present and `from <= date <= to` in string order |
| Filters.FilterByDateIsMaskSelection | streamlit_app.py:29 | the result is exactly the in-range rows in their original order |
| Filters.FilterByDateIdempotent | streamlit_app.py:29 | filtering again with the same bounds returns the same table |
| Filters.InvertedBoundsEmpty | streamlit_app.py:29 | when "from" sorts after "to" the result is empty and nothing is raised |
| Filters.StampOfPickedDay | streamlit_app.py:27-29 | a timestamp of day d sorts after d's ISO date and before the next day's |
| Filters.StampOfEarlierDay | streamlit_app.py:27-29 | a timestamp of an earlier day sorts before the picked day's ISO date |
| Filters.StampOfLaterDay | streamlit_app.py:27-29 | a timestamp of a later day, the next day included, sorts after the upper bound |
| Filters.BareNextDayKept | streamlit_app.py:27-29 | the upper bound is inclusive: a bare ISO date string of the day after the "to" pick passes the filter whenever "from" is not after "to" |
| Filters.StampInPickedDay | streamlit_app.py:27-29 | with "from" and "to" both on day d, a timestamp is kept exactly when it is a timestamp of day d |
| Filters.PickedDayKeepsThatDay | streamlit_app.py:27-29 | with "from" and "to" both on day d, the filter keeps exactly the rows whose timestamp starts with d's ISO date, in order; every earlier or later day is dropped |
| Filters.DefaultPickKeepsAll | streamlit_app.py:20-29 | with the pickers at their defaults, a newest-first table of timestamps passes the date filter unchanged |
| Filters.DefaultBoundsAroundEnds | streamlit_app.py:20-28 | with the default pick the lower bound is at or below the oldest row's timestamp and the upper bound at or above the newest row's timestamp |
| Filters.InvertedPickKeepsNoStamp | streamlit_app.py:25-29 | when "to" is picked before "from", only a bare "from" date can pass, and a table of timestamps with times yields nothing |
| Filters.SelectableColumns | streamlit_app.py:46-47 | the offered columns are exactly the five kept columns other than `date` |
| Filters.ColumnValues | streamlit_app.py:49 | the column has one cell per row, the row's value in that column |
| Filters.ValueChoices | streamlit_app.py:49 | the offered values have no repetition, and a value is offered exactly when some row holds it in the column |
| Filters.ColumnValuesMembers | streamlit_app.py:49 | a value occurs in the column exactly when some row holds it in that column |
| Filters.FilterByColumn | streamlit_app.py:51 | for an offered column a row is kept exactly when its cell equals the picked value and the value is not NaN; any other column is rejected |
| Filters.FilterByColumnIsMaskSelection | streamlit_app.py:51 | the view is exactly the matching rows in their original order |
| Filters.ColumnMask | streamlit_app.py:51 | a row's mask entry is true exactly when the value is not NaN and equals the row's cell |
| Filters.FilterByColumnIdempotent | streamlit_app.py:51 | filtering twice on the same column and value is filtering once |
| Filters.ChoiceSelection | streamlit_app.py:49-51 | every offered non-NaN value selects at least one row; the NaN choice selects none |
| Filters.NaNMatchesNothing | streamlit_app.py:51 | comparing with NaN keeps no row |
| Aggregate.Bump | streamlit_app.py:78 | adding to a key's group keeps the key set (plus the key) and the keys distinct, and adds the amount to that key's count and to the total only |
| Aggregate.PresentKeys | streamlit_app.py:78 | a key is present exactly when some row holds it |
| Aggregate.KeyedTotal | streamlit_app.py:79 | the counted rows are at most the table's rows |
| Aggregate.Total | streamlit_app.py:79 | `sum(df_grouped_by_name[KEY_NUKI_ACTION])`: no group's count exceeds the sum, and the sum is zero exactly when every group's count is zero |
| Aggregate.GroupCount | streamlit_app.py:78 | one group per distinct present key, and no key listed twice |
| Aggregate.GroupCountCounts | streamlit_app.py:78-79 | each group's count is the number of that key's rows with an action, and the counts sum to the rows with both key and action present |
| Aggregate.Summarize | streamlit_app.py:78-80 | the action total is the number of rows with a present key and action, at most the row count; the group total is the number of distinct present keys |
| Aggregate.NameSummary | streamlit_app.py:78-80 | `total_number_of_members` is the number of distinct present names; `total_number_of_actions` counts rows with both name and action present, at most the row count; each name's count is its rows with an action; the groups are one per distinct present name, none listed twice |
| Aggregate.DayOf | streamlit_app.py:101 | a missing date becomes the key "NaT" (the string form of NaT) and never makes the conversion fail; only a present timestamp that cannot be parsed fails |
| Aggregate.DayColumn | streamlit_app.py:101 | every date is replaced by its local day, with other fields unchanged, or the run fails on an unparseable timestamp; a failure names a present timestamp that does not convert |
| Aggregate.KeyedTotalAllKeyed | streamlit_app.py:103 | when every row has a key, the counted rows are the rows with an action |
| Aggregate.ActionCountIgnoresDates | streamlit_app.py:101-103 | rewriting the date column does not change the number of rows with an action |
| Aggregate.DayColumnKeys | streamlit_app.py:101-102 | the group keys of the day column are the distinct days of the rows |
| Aggregate.DateSummary | streamlit_app.py:101-104 | `total_number_of_dates` is the number of distinct days and `total_number_of_actions` the number of rows with an action; an unparseable timestamp fails the run; the groups are one per distinct day, none listed twice |
| Aggregate.MissingDateIsNaTGroup | streamlit_app.py:101-102 | grouping by day keeps a row with a missing date, under the key "NaT". On the page no such row reaches line 101, because line 29 has already dropped it (`Pipeline.Run`) |
| Pipeline.Ingest | streamlit_app.py:60-63 | the ingested table is the projection followed by the name fallback, so every cell is the record's cell of that column except a missing name, which takes the trigger; a name survives missing only where both the name and the trigger cells were missing; a missing column fails |
| Pipeline.FallbackNames | streamlit_app.py:61-63 | after the fallback a name is missing only where the record's name and trigger cells were both missing |
| Pipeline.SelectDateRange | streamlit_app.py:18-30 | an empty table raises EmptyTable before anything else; a "to" of 9999-12-31 overflows; otherwise the bounds are the normalised picked dates and exactly the in-range rows are kept, in order |
| Pipeline.Run | streamlit_app.py:59-104 | a run fails on missing columns or an empty table. On success, the bounds and table are exactly the date-range stage on the ingested rows with the picked "from" and "to", so every kept row is in range and has a date; the column view, the name summary and the date summary are computed from that table; both action totals are bounded by the kept rows |
| Pipeline.RunOutcome | streamlit_app.py:59-104 | a run fails only for a missing column, an empty table, a "to" of 9999-12-31, an unknown filter column or an unparseable timestamp among the kept rows, and it succeeds exactly when none of these is present |

## Left out

- Streamlit widgets, page configuration, previews (`show_preview`, `head(10)`), metrics, `st.write` and the `st.button` gating of the charts: presentation only. The picked dates, column and value are parameters of the model.
- Reading the upload with `pd.read_csv` (UTF-16, tab separator): the model starts from the parsed header and records (`LogTable.Frame`). Its type inference is also not modelled: every cell is a string or missing.
- How Streamlit turns a default timestamp string into the initial value of a date picker: the lemmas about the defaults take the day of each timestamp as given (`Filters.Stamped`).
- The `Europe/Zurich` conversion of line 101: it depends on the timezone database. It is the parameter `dayKey` (timestamp to local day, or none when pandas cannot parse the timestamp).
- Altair chart construction, colours, fonts and the `sort='-x'` display order: presentation only.
- The order in which pandas lists groups (sorted by key): nothing in the page depends on it, so groups are kept in first-seen order without any claim about order.

=== FILE: aggregate.dfy ===
/**
 The two group-and-count aggregations (streamlit_app.py, lines 78-80 and
 99-104). `df.groupby(key).count()` drops the rows whose key is NaN and, per
 remaining key, counts the rows whose `action` is not NaN; the dashboard
 then sums that count column and counts the groups.

 Groups are listed here in order of first appearance; pandas sorts them by
 key, and nothing downstream depends on the order.
 */
module Aggregate {
  import opened Results
  import opened Seqs
  import opened LogTable

  /** One row of the grouped frame: a key and its non-missing `action` count. */
  datatype Group = Group(key: string, count: nat)

  /** The keys of the grouped frame. */
  function KeysOf(g: seq<Group>): set<string>
  {
    if |g| == 0 then {} else {g[0].key} + KeysOf(g[1..])
  }

  predicate DistinctKeys(g: seq<Group>)
  {
    |g| == 0 || (g[0].key !in KeysOf(g[1..]) && DistinctKeys(g[1..]))
  }

  /** The count listed for key `k`, 0 when there is no such group. */
  function CountOf(g: seq<Group>, k: string): nat
  {
    if |g| == 0 then 0 else if g[0].key == k then g[0].count else CountOf(g[1..], k)
  }

  /** `sum(df_grouped[KEY_NUKI_ACTION])`. */
  function Total(g: seq<Group>): (t: nat)
    ensures forall k :: CountOf(g, k) <= t
    ensures t == 0 <==> forall i :: 0 <= i < |g| ==> g[i].count == 0
  {
    if |g| == 0 then 0 else g[0].count + Total(g[1..])
  }

  /** Add `c` to the group of key `k`, opening the group if it is new. */
  function Bump(g: seq<Group>, k: string, c: nat): (r: seq<Group>)
    ensures KeysOf(r) == KeysOf(g) + {k}
    ensures |r| == |g| + (if k in KeysOf(g) then 0 else 1)
    ensures Total(r) == Total(g) + c
    ensures forall j :: CountOf(r, j) == CountOf(g, j) + (if j == k then c else 0)
    ensures DistinctKeys(g) ==> DistinctKeys(r)
  {
    if |g| == 0 then [Group(k, c)]
    else if g[0].key == k then [Group(k, g[0].count + c)] + g[1..]
    else [g[0]] + Bump(g[1..], k, c)
  }

  // ---- what the grouping has to produce, stated row by row ----

  /** The distinct present keys of the rows. */
  function PresentKeys(rows: seq<Row>, key: Row -> Option<string>): (ks: set<string>)
    ensures forall k :: k in ks <==> exists i :: 0 <= i < |rows| && key(rows[i]) == Some(k)
  {
    if |rows| == 0 then {}
    else
      var last := rows[|rows| - 1];
      var ks := PresentKeys(rows[..|rows| - 1], key);
      assert forall i :: 0 <= i < |rows| - 1 ==> rows[..|rows| - 1][i] == rows[i];
      if key(last).Some? then ks + {key(last).value} else ks
  }

  /** Rows whose key is `k` and whose action is present. */
  function KeyedCount(rows: seq<Row>, key: Row -> Option<string>, k: string): nat
  {
    if |rows| == 0 then 0
    else
      var last := rows[|rows| - 1];
      KeyedCount(rows[..|rows| - 1], key, k) + (if key(last) == Some(k) && last.action.Some? then 1 else 0)
  }

  /** Rows whose key and action are both present. */
  function KeyedTotal(rows: seq<Row>, key: Row -> Option<string>): (n: nat)
    ensures n <= |rows|
  {
    if |rows| == 0 then 0
    else
      var last := rows[|rows| - 1];
      KeyedTotal(rows[..|rows| - 1], key) + (if key(last).Some? && last.action.Some? then 1 else 0)
  }

  /** `df.groupby(key).count()[KEY_NUKI_ACTION]`: one group per distinct
      present key, holding the number of that key's rows with an action. */
  function GroupCount(rows: seq<Row>, key: Row -> Option<string>): (g: seq<Group>)
    ensures DistinctKeys(g)
    ensures KeysOf(g) == PresentKeys(rows, key)
    ensures |g| == |PresentKeys(rows, key)|
  {
    if |rows| == 0 then []
    else
      var last := rows[|rows| - 1];
      var g := GroupCount(rows[..|rows| - 1], key);
      var ks := PresentKeys(rows[..|rows| - 1], key);
      if key(last).Some? then
        var k := key(last).value;
        assert PresentKeys(rows, key) == ks + {k};
        assert k in ks ==> ks + {k} == ks;
        assert k !in ks ==> |ks + {k}| == |ks| + 1;
        Bump(g, k, if last.action.Some? then 1 else 0)
      else
        assert PresentKeys(rows, key) == ks;
        g
  }

  /** Each group counts exactly its key's rows with an action, and the
      counts add up to the rows whose key and action are both present. */
  lemma {:induction false} GroupCountCounts(rows: seq<Row>, key: Row -> Option<string>)
    ensures forall k :: CountOf(GroupCount(rows, key), k) == KeyedCount(rows, key, k)
    ensures Total(GroupCount(rows, key)) == KeyedTotal(rows, key)
  {
    if |rows| > 0 {
      GroupCountCounts(rows[..|rows| - 1], key);
    }
  }

  /** The grouped frame and the two numbers shown on the chart axes. */
  datatype Summary = Summary(groups: seq<Group>, totalActions: nat, totalGroups: nat)

  /** Lines 78-80 and 102-104: group, sum the action counts, count the groups. */
  function Summarize(rows: seq<Row>, key: Row -> Option<string>): (s: Summary)
    ensures s.totalActions == KeyedTotal(rows, key) && s.totalActions <= |rows|
    ensures s.totalGroups == |PresentKeys(rows, key)| == |s.groups|
    ensures DistinctKeys(s.groups)
    ensures forall k :: k in KeysOf(s.groups) <==> exists i :: 0 <= i < |rows| && key(rows[i]) == Some(k)
    ensures forall k :: CountOf(s.groups, k) == KeyedCount(rows, key, k)
  {
    var g := GroupCount(rows, key);
    GroupCountCounts(rows, key);
    Summary(g, Total(g), |g|)
  }

  // ---- the name aggregation (lines 78-80) ----

  function NameKey(row: Row): Option<string>
  {
    row.name
  }

  /** `df.groupby(KEY_TTVZ_MEMBER).count()` with `total_number_of_actions`
      and `total_number_of_members`. */
  function NameSummary(rows: seq<Row>): (s: Summary)
    ensures s.totalGroups == |set i | 0 <= i < |rows| && rows[i].name.Some? :: rows[i].name.value|
    ensures DistinctKeys(s.groups) && |s.groups| == s.totalGroups
    ensures forall k :: k in KeysOf(s.groups) <==> exists i :: 0 <= i < |rows| && rows[i].name == Some(k)
    ensures s.totalActions == KeyedTotal(rows, NameKey) <= |rows|
    ensures forall k :: CountOf(s.groups, k) == KeyedCount(rows, NameKey, k)
  {
    var s := Summarize(rows, NameKey);
    assert PresentKeys(rows, NameKey) == set i | 0 <= i < |rows| && rows[i].name.Some? :: rows[i].name.value;
    s
  }

  // ---- the date aggregation (lines 99-104) ----

  /** `pd.to_datetime(d, utc=True).tz_convert(TZ).date` rendered with
      `astype(str)`: `dayKey` stands for the conversion of a timestamp to a
      local calendar day (`None` where pandas cannot parse it); a missing
      date becomes NaT, whose string form is "NaT". */
  function DayOf(date: Option<string>, dayKey: string -> Option<string>): (r: Option<string>)
    ensures r.None? ==> date.Some?
    ensures date.None? ==> r == Some("NaT")
  {
    if date.None? then Some("NaT") else dayKey(date.value)
  }

  /** `df[KEY_DATE] = ...`: every date replaced by its day, or the first
      unparseable timestamp reported. */
  function DayColumn(rows: seq<Row>, dayKey: string -> Option<string>): (r: Result<seq<Row>, Error>)
    ensures r.Success? <==> forall i :: 0 <= i < |rows| ==> DayOf(rows[i].date, dayKey).Some?
    ensures r.Failure? ==> exists i ::
      0 <= i < |rows| && rows[i].date.Some? && dayKey(rows[i].date.value).None? && r.error == InvalidTimestamp(rows[i].date.value)
    ensures r.Success? ==> |r.value| == |rows|
    ensures r.Success? ==> forall i :: 0 <= i < |rows| ==>
      r.value[i] == rows[i].(date := DayOf(rows[i].date, dayKey))
  {
    if |rows| == 0 then Success([])
    else
      var day := DayOf(rows[0].date, dayKey);
      if day.None? then Failure(InvalidTimestamp(rows[0].date.value))
      else
        match DayColumn(rows[1..], dayKey)
        case Failure(e) => Failure(e)
        case Success(tail) => Success([rows[0].(date := day)] + tail)
  }

  function DateKey(row: Row): Option<string>
  {
    row.date
  }

  predicate HasAction(row: Row)
  {
    row.action.Some?
  }

  /** When every row has a key, the counted rows are the rows with an action. */
  lemma {:induction false} KeyedTotalAllKeyed(rows: seq<Row>, key: Row -> Option<string>)
    requires forall i :: 0 <= i < |rows| ==> key(rows[i]).Some?
    ensures KeyedTotal(rows, key) == Count(rows, HasAction)
  {
    if |rows| > 0 {
      KeyedTotalAllKeyed(rows[..|rows| - 1], key);
    }
  }

  /** Rewriting the date column leaves the action column alone. */
  lemma {:induction false} ActionCountIgnoresDates(rows: seq<Row>, rows': seq<Row>)
    requires |rows'| == |rows|
    requires forall i :: 0 <= i < |rows| ==> rows'[i].action == rows[i].action
    ensures Count(rows', HasAction) == Count(rows, HasAction)
  {
    if |rows| > 0 {
      ActionCountIgnoresDates(rows[..|rows| - 1], rows'[..|rows| - 1]);
    }
  }

  /** The distinct days of a table. */
  function DaysOf(rows: seq<Row>, dayKey: string -> Option<string>): set<string>
  {
    set i | 0 <= i < |rows| && DayOf(rows[i].date, dayKey).Some? :: DayOf(rows[i].date, dayKey).value
  }

  lemma DayColumnKeys(rows: seq<Row>, days: seq<Row>, dayKey: string -> Option<string>)
    requires |days| == |rows|
    requires forall i :: 0 <= i < |rows| ==> days[i] == rows[i].(date := DayOf(rows[i].date, dayKey))
    ensures PresentKeys(days, DateKey) == DaysOf(rows, dayKey)
  {
    forall k | k in DaysOf(rows, dayKey) ensures k in PresentKeys(days, DateKey) {
      var i :| 0 <= i < |rows| && DayOf(rows[i].date, dayKey) == Some(k);
      assert DateKey(days[i]) == Some(k);
    }
  }

  /** `df.groupby(by=df[KEY_DATE]).count()` on the day column, with
      `total_number_of_actions` and `total_number_of_dates`: one group per
      distinct day, and every row with an action counted once. */
  function DateSummary(rows: seq<Row>, dayKey: string -> Option<string>): (r: Result<Summary, Error>)
    ensures r.Success? <==> forall i :: 0 <= i < |rows| ==> DayOf(rows[i].date, dayKey).Some?
    ensures r.Failure? ==> r.error.InvalidTimestamp?
    ensures r.Success? ==> r.value.totalActions == Count(rows, HasAction)
    ensures r.Success? ==> r.value.totalGroups == |DaysOf(rows, dayKey)|
    ensures r.Success? ==> DistinctKeys(r.value.groups) && |r.value.groups| == r.value.totalGroups
    ensures r.Success? ==> forall k :: k in KeysOf(r.value.groups) <==> k in DaysOf(rows, dayKey)
  {
    match DayColumn(rows, dayKey)
    case Failure(e) => Failure(e)
    case Success(days) =>
      KeyedTotalAllKeyed(days, DateKey);
      ActionCountIgnoresDates(rows, days);
      DayColumnKeys(rows, days, dayKey);
      Success(Summarize(days, DateKey))
  }

  /** Grouping by day does not drop a row whose date is missing: line 101
      turns it into the key "NaT". On the page such rows never get here,
      because the date filter of line 29 has already dropped them. */
  lemma MissingDateIsNaTGroup(rows: seq<Row>, dayKey: string -> Option<string>)
    requires DateSummary(rows, dayKey).Success?
    requires exists i :: 0 <= i < |rows| && rows[i].date.None?
    ensures "NaT" in KeysOf(DateSummary(rows, dayKey).value.groups)
  {
    var i :| 0 <= i < |rows| && rows[i].date.None?;
    assert DayOf(rows[i].date, dayKey) == Some("NaT");
    assert "NaT" in DaysOf(rows, dayKey);
  }
}

=== FILE: calendar.dfy ===
/**
 Proleptic Gregorian dates as Python's `datetime.date` holds them (years 1
 through 9999), the one-day step `date + timedelta(days=1)` and the
 `isoformat()` rendering `YYYY-MM-DD` (the `full-date` production of section
 5.6 of RFC 3339).
 */
module Calendar {
  import opened Results
  import opened LexOrder

  datatype Date = Date(year: int, month: int, day: int)

  const MinYear: int := 1
  const MaxYear: int := 9999

  /** The last date Python can represent; one day later overflows. */
  const MaxDate: Date := Date(9999, 12, 31)

  /** `date.max.toordinal()` in CPython. */
  const MaxOrdinal: int := 3652059

  predicate IsLeapYear(y: int)
  {
    y % 4 == 0 && (y % 100 != 0 || y % 400 == 0)
  }

  function DaysInMonth(y: int, m: int): (n: int)
    requires 1 <= m <= 12
    ensures 28 <= n <= 31
    ensures n == 29 <==> m == 2 && IsLeapYear(y)
  {
    if m == 2 then (if IsLeapYear(y) then 29 else 28)
    else if m == 4 || m == 6 || m == 9 || m == 11 then 30
    else 31
  }

  /** A value `datetime.date` accepts. */
  predicate Valid(d: Date)
  {
    && MinYear <= d.year <= MaxYear
    && 1 <= d.month <= 12
    && 1 <= d.day <= DaysInMonth(d.year, d.month)
  }

  /** Chronological order: year, then month, then day. */
  predicate Before(a: Date, b: Date)
  {
    || a.year < b.year
    || (a.year == b.year && a.month < b.month)
    || (a.year == b.year && a.month == b.month && a.day < b.day)
  }

  /** `d + timedelta(days=1)`; `None` where Python raises OverflowError. */
  function NextDay(d: Date): (r: Option<Date>)
    requires Valid(d)
    ensures r.None? <==> d == MaxDate
    ensures r.Some? ==> Valid(r.value) && Before(d, r.value)
  {
    if d.day < DaysInMonth(d.year, d.month) then Some(Date(d.year, d.month, d.day + 1))
    else if d.month < 12 then Some(Date(d.year, d.month + 1, 1))
    else if d.year < MaxYear then Some(Date(d.year + 1, 1, 1))
    else None
  }

  /** No valid date lies strictly between a date and its successor. */
  lemma NextDayIsSuccessor(d: Date, e: Date)
    requires Valid(d) && Valid(e) && d != MaxDate
    requires Before(d, e)
    ensures NextDay(d).value == e || Before(NextDay(d).value, e)
  {
  }

  // ---- CPython's ordinal arithmetic, the reference for the one-day step ----

  /** Days in the years before year `y` (CPython `_days_before_year`). */
  function DaysBeforeYear(y: int): int
    requires y >= 1
  {
    var p := y - 1;
    p * 365 + p / 4 - p / 100 + p / 400
  }

  /** Days in the months of year `y` before month `m` (CPython `_days_before_month`). */
  function DaysBeforeMonth(y: int, m: int): int
    requires 1 <= m <= 12
  {
    var table := [0, 0, 31, 59, 90, 120, 151, 181, 212, 243, 273, 304, 334];
    table[m] + (if m > 2 && IsLeapYear(y) then 1 else 0)
  }

  /** Day number with 0001-01-01 as day 1 (CPython `date.toordinal`). */
  function Ordinal(d: Date): int
    requires Valid(d)
  {
    DaysBeforeYear(d.year) + DaysBeforeMonth(d.year, d.month) + d.day
  }

  lemma YearLength(y: int)
    requires y >= 1
    ensures DaysBeforeYear(y + 1) == DaysBeforeYear(y) + (if IsLeapYear(y) then 366 else 365)
  {
    var p := y - 1;
    assert y / 4 == p / 4 + (if y % 4 == 0 then 1 else 0);
    assert y / 100 == p / 100 + (if y % 100 == 0 then 1 else 0);
    assert y / 400 == p / 400 + (if y % 400 == 0 then 1 else 0);
    if y % 400 == 0 {
      assert y % 100 == 0 && y % 4 == 0;
    } else if y % 100 == 0 {
      assert y % 4 == 0;
    }
  }

  /** Within a year, each month starts the day after the previous one ends. */
  lemma MonthLength(y: int, m: int)
    requires y >= 1 && 1 <= m < 12
    ensures DaysBeforeMonth(y, m + 1) == DaysBeforeMonth(y, m) + DaysInMonth(y, m)
  {
  }

  /** The successor's ordinal is one more. */
  lemma OrdinalStep(d: Date)
    requires Valid(d) && d != MaxDate
    ensures Ordinal(NextDay(d).value) == Ordinal(d) + 1
  {
    if d.day == DaysInMonth(d.year, d.month) {
      if d.month < 12 {
        MonthLength(d.year, d.month);
      } else {
        YearLength(d.year);
      }
    }
  }

  /** Only the last representable date has CPython's largest ordinal. */
  lemma MaxOrdinalOnlyAtMaxDate(d: Date)
    requires Valid(d)
    ensures Ordinal(d) == MaxOrdinal <==> d == MaxDate
  {
    if d.year < MaxYear {
      OrdinalBelowLastYear(d);
    } else {
      assert DaysBeforeYear(MaxYear) == 3651694;
      if d.month < 12 {
        MonthLength(d.year, d.month);
        assert DaysBeforeMonth(d.year, d.month + 1) <= 334;
      }
    }
  }

  /** The one-day step is Python's `fromordinal(toordinal() + 1)`, and it
      overflows exactly past CPython's largest ordinal. */
  lemma NextDayOrdinal(d: Date)
    requires Valid(d)
    ensures NextDay(d).Some? ==> Ordinal(NextDay(d).value) == Ordinal(d) + 1
    ensures NextDay(d).None? <==> Ordinal(d) == MaxOrdinal
  {
    MaxOrdinalOnlyAtMaxDate(d);
    if d != MaxDate {
      OrdinalStep(d);
    }
  }

  lemma OrdinalBelowLastYear(d: Date)
    requires Valid(d) && d.year < MaxYear
    ensures Ordinal(d) < MaxOrdinal
  {
    var p := d.year - 1;
    assert p <= 9997;
    assert p / 4 <= 2499 && p / 400 <= 24 && p / 100 >= p / 400;
    assert DaysBeforeYear(d.year) <= 9997 * 365 + 2499;
  }

  // ---- isoformat ----

  function Pow10(w: nat): (r: nat)
    ensures r >= 1
  {
    if w == 0 then 1 else 10 * Pow10(w - 1)
  }

  function Digit(n: int): (c: char)
    requires 0 <= n <= 9
    ensures '0' <= c <= '9'
  {
    (48 + n) as char
  }

  /** The numeric value of a string of decimal digits. */
  function DigitsValue(s: string): int
    requires forall i :: 0 <= i < |s| ==> '0' <= s[i] <= '9'
  {
    if |s| == 0 then 0 else 10 * DigitsValue(s[..|s| - 1]) + (s[|s| - 1] as int - 48)
  }

  /** `'%0*d' % (w, n)`: `n` in exactly `w` decimal digits, zero-padded. */
  function Pad(n: nat, w: nat): (s: string)
    requires n < Pow10(w)
    ensures |s| == w
    ensures forall i :: 0 <= i < |s| ==> '0' <= s[i] <= '9'
    decreases w
  {
    if w == 0 then [] else Pad(n / 10, w - 1) + [Digit(n % 10)]
  }

  /** Reading the padded digits back gives the number. */
  lemma {:induction false} PadValue(n: nat, w: nat)
    requires n < Pow10(w)
    ensures DigitsValue(Pad(n, w)) == n
    decreases w
  {
    if w > 0 {
      var s := Pad(n, w);
      assert s[..|s| - 1] == Pad(n / 10, w - 1);
      PadValue(n / 10, w - 1);
    }
  }

  /** Zero padding to a common width makes string order agree with numeric order. */
  lemma {:induction false} PadLess(a: nat, b: nat, w: nat)
    requires a < b < Pow10(w)
    ensures Less(Pad(a, w), Pad(b, w))
    decreases w
  {
    if w == 0 {
      assert false;
    } else if a / 10 < b / 10 {
      PadLess(a / 10, b / 10, w - 1);
      AppendKeepsLess(Pad(a / 10, w - 1), Pad(b / 10, w - 1), [Digit(a % 10)], [Digit(b % 10)]);
    } else {
      assert a % 10 < b % 10;
      CommonPrefix(Pad(a / 10, w - 1), [Digit(a % 10)], [Digit(b % 10)]);
    }
  }

  /** `date.isoformat()`: `YYYY-MM-DD`. */
  function Iso(d: Date): (s: string)
    requires Valid(d)
    ensures |s| == 10 && s[4] == '-' && s[7] == '-'
    ensures forall i :: 0 <= i < 10 && i != 4 && i != 7 ==> '0' <= s[i] <= '9'
  {
    Pad(d.year, 4) + ("-" + (Pad(d.month, 2) + ("-" + Pad(d.day, 2))))
  }

  /** The rendered fields read back as the year, month and day. */
  lemma IsoFields(d: Date)
    requires Valid(d)
    ensures DigitsValue(Iso(d)[0..4]) == d.year
    ensures DigitsValue(Iso(d)[5..7]) == d.month
    ensures DigitsValue(Iso(d)[8..10]) == d.day
  {
    var s := Iso(d);
    assert s[0..4] == Pad(d.year, 4);
    assert s[5..7] == Pad(d.month, 2);
    assert s[8..10] == Pad(d.day, 2);
    PadValue(d.year, 4);
    PadValue(d.month, 2);
    PadValue(d.day, 2);
  }

  lemma IsoMonotone(a: Date, b: Date)
    requires Valid(a) && Valid(b) && Before(a, b)
    ensures Less(Iso(a), Iso(b))
  {
    var da, db := "-" + Pad(a.day, 2), "-" + Pad(b.day, 2);
    var ma, mb := Pad(a.month, 2) + da, Pad(b.month, 2) + db;
    if a.year < b.year {
      PadLess(a.year, b.year, 4);
      AppendKeepsLess(Pad(a.year, 4), Pad(b.year, 4), "-" + ma, "-" + mb);
    } else {
      if a.month < b.month {
        PadLess(a.month, b.month, 2);
        AppendKeepsLess(Pad(a.month, 2), Pad(b.month, 2), da, db);
      } else {
        PadLess(a.day, b.day, 2);
        CommonPrefix("-", Pad(a.day, 2), Pad(b.day, 2));
        CommonPrefix(Pad(a.month, 2), da, db);
      }
      CommonPrefix("-", ma, mb);
      CommonPrefix(Pad(a.year, 4), "-" + ma, "-" + mb);
    }
  }

  /** Chronological order and string order of ISO dates coincide. */
  lemma IsoOrder(a: Date, b: Date)
    requires Valid(a) && Valid(b)
    ensures Before(a, b) <==> Less(Iso(a), Iso(b))
  {
    if Before(a, b) {
      IsoMonotone(a, b);
    } else if a == b {
      Irreflexive(Iso(a));
    } else {
      assert Before(b, a);
      IsoMonotone(b, a);
      Asymmetric(Iso(b), Iso(a));
    }
  }
}

=== FILE: filters.dfy ===
/**
 The two filters of the dashboard: the date range of `filter_date_selection`
 (streamlit_app.py, lines 18-30) and the single column/value filter of
 `filter_more_selection` (lines 44-53).

 The date filter compares the raw timestamp strings of the `date` column
 with two ISO dates using Python's string order; the lemmas here show that
 this selects whole calendar days under the assumption they state:
 every timestamp starts with its ISO date followed by a time part, with
 any separator (`OnDay`, `Stamped`).
 */
module Filters {
  import opened Results
  import opened LexOrder
  import opened Calendar
  import opened Seqs
  import opened LogTable

  // ---- default bounds (line 20) ----

  /** The table is newest-first: a later row never has a later timestamp. */
  predicate NewestFirst(rows: seq<Row>)
  {
    forall i, j :: 0 <= i < j < |rows| && rows[i].date.Some? && rows[j].date.Some? ==>
      LessEq(rows[j].date.value, rows[i].date.value)
  }

  /** `df[KEY_DATE].loc[[len(df)-1, 0]]`: the dates of the last and of the
      first row, the defaults of the "From" and "To" pickers. On an empty
      table the label -1 does not exist and pandas raises. */
  function DefaultDates(rows: seq<Row>): (r: Result<(Option<string>, Option<string>), Error>)
    ensures r.Failure? <==> |rows| == 0
    ensures r.Failure? ==> r.error == EmptyTable
    ensures r.Success? ==> r.value.0 == rows[|rows| - 1].date && r.value.1 == rows[0].date
  {
    if |rows| == 0 then Failure(EmptyTable) else Success((rows[|rows| - 1].date, rows[0].date))
  }

  /** On a newest-first table the defaults enclose every timestamp: "from"
      is the oldest and "to" the newest. */
  lemma DefaultDatesEnclose(rows: seq<Row>)
    requires |rows| > 0 && NewestFirst(rows)
    requires forall i :: 0 <= i < |rows| ==> rows[i].date.Some?
    ensures DefaultDates(rows).Success?
    ensures forall i :: 0 <= i < |rows| ==>
      && LessEq(DefaultDates(rows).value.0.value, rows[i].date.value)
      && LessEq(rows[i].date.value, DefaultDates(rows).value.1.value)
  {
  }

  // ---- normalised bounds (lines 25-28) ----

  /** The two ISO strings the rows are compared with. */
  datatype Bounds = Bounds(lower: string, upper: string)

  /** "from" is the picked date in ISO form; "to" is the picked date plus
      one day in ISO form, so that the whole picked day passes the filter.
      Adding a day to 9999-12-31 overflows. */
  function NormalizeBounds(fromDate: Date, toDate: Date): (r: Result<Bounds, Error>)
    requires Valid(fromDate) && Valid(toDate)
    ensures r.Failure? <==> toDate == MaxDate
    ensures r.Failure? ==> r.error == DateOverflow
    ensures r.Success? ==> r.value.lower == Iso(fromDate)
    ensures r.Success? ==> |r.value.upper| == 10 && Less(Iso(toDate), r.value.upper)
    ensures r.Success? ==> r.value.upper == Iso(NextDay(toDate).value)
  {
    match NextDay(toDate)
    case None => Failure(DateOverflow)
    case Some(next) =>
      IsoMonotone(toDate, next);
      Success(Bounds(Iso(fromDate), Iso(next)))
  }

  /** The upper bound is the ISO form of the date whose CPython ordinal is
      one past the picked "to" date. */
  lemma UpperBoundOrdinal(fromDate: Date, toDate: Date)
    requires Valid(fromDate) && Valid(toDate) && toDate != MaxDate
    ensures exists e ::
      Valid(e) && Ordinal(e) == Ordinal(toDate) + 1 && NormalizeBounds(fromDate, toDate).value.upper == Iso(e)
  {
    var e := NextDay(toDate).value;
    NextDayOrdinal(toDate);
    assert Valid(e) && Ordinal(e) == Ordinal(toDate) + 1;
    assert NormalizeBounds(fromDate, toDate).value.upper == Iso(e);
  }

  /** The upper bound is exactly one day on: no ISO date sorts strictly
      between the picked "to" date and the upper bound. */
  lemma UpperBoundIsNextDay(fromDate: Date, toDate: Date, e: Date)
    requires Valid(fromDate) && Valid(toDate) && Valid(e) && toDate != MaxDate
    requires Less(Iso(toDate), Iso(e))
    ensures LessEq(NormalizeBounds(fromDate, toDate).value.upper, Iso(e))
  {
    var next := NextDay(toDate).value;
    IsoOrder(toDate, e);
    NextDayIsSuccessor(toDate, e);
    if next != e {
      IsoMonotone(next, e);
    }
  }

  // ---- the date-range filter (line 29) ----

  /** `from_date <= t <= to_date` on Python strings. */
  predicate StampInRange(t: string, b: Bounds)
  {
    LessEq(b.lower, t) && LessEq(t, b.upper)
  }

  /** `(df[KEY_DATE] >= from_date) & (df[KEY_DATE] <= to_date)` for one row;
      a missing date compares false. */
  predicate InDateRange(row: Row, b: Bounds)
  {
    row.date.Some? && StampInRange(row.date.value, b)
  }

  /** `df[(df[KEY_DATE] >= from_date) & (df[KEY_DATE] <= to_date)]`. */
  function FilterByDate(rows: seq<Row>, b: Bounds): (r: seq<Row>)
    ensures |r| <= |rows|
    ensures forall row :: row in r <==> row in rows && InDateRange(row, b)
  {
    Filter(rows, row => InDateRange(row, b))
  }

  /** The filter is the boolean-mask selection: the k-th kept row is the row
      at the k-th position whose timestamp lies in the range, so the result is
      the in-range rows in their original order. */
  lemma FilterByDateIsMaskSelection(rows: seq<Row>, b: Bounds)
    ensures var idx := MaskPositions(rows, row => InDateRange(row, b));
      && (forall i :: 0 <= i < |rows| ==> (i in idx <==> InDateRange(rows[i], b)))
      && (forall k, l :: 0 <= k < l < |idx| ==> idx[k] < idx[l])
      && |FilterByDate(rows, b)| == |idx|
      && (forall k :: 0 <= k < |idx| ==> FilterByDate(rows, b)[k] == rows[idx[k]])
  {
    FilterSelectsMaskPositions(rows, row => InDateRange(row, b));
  }

  /** Filtering a filtered table again with the same bounds changes nothing. */
  lemma FilterByDateIdempotent(rows: seq<Row>, b: Bounds)
    ensures FilterByDate(FilterByDate(rows, b), b) == FilterByDate(rows, b)
  {
    FilterIdempotent(rows, row => InDateRange(row, b));
  }

  /** Bounds in the wrong order select nothing, and raise nothing. */
  lemma InvertedBoundsEmpty(rows: seq<Row>, b: Bounds)
    requires Less(b.upper, b.lower)
    ensures FilterByDate(rows, b) == []
  {
    forall i | 0 <= i < |rows| ensures !InDateRange(rows[i], b) {
      if InDateRange(rows[i], b) {
        var t := rows[i].date.value;
        LessEqTransitive(b.lower, t, b.upper);
        LessEqIffNotGreater(b.lower, b.upper);
      }
    }
    FilterKeepsNone(rows, row => InDateRange(row, b));
  }

  /** A timestamp of day `e`: the ISO date, then a separator and the time
      of day (`T` or a space). */
  predicate OnDay(t: string, e: Date)
    requires Valid(e)
  {
    |t| > 10 && t[..10] == Iso(e)
  }

  /** The same day: the ISO date is a proper prefix of the timestamp, and
      the timestamp differs from the next day's ISO date inside the date. */
  lemma StampOfPickedDay(d: Date, t: string)
    requires Valid(d) && d != MaxDate && OnDay(t, d)
    ensures Less(Iso(d), t) && Less(t, Iso(NextDay(d).value))
  {
    var next := NextDay(d).value;
    var rest := t[10..];
    assert t == Iso(d) + rest;
    PrefixLess(Iso(d), rest);
    IsoMonotone(d, next);
    AppendKeepsLess(Iso(d), Iso(next), rest, []);
    assert Iso(next) + [] == Iso(next);
  }

  /** An earlier day sorts below the picked day's ISO date. */
  lemma StampOfEarlierDay(d: Date, e: Date, t: string)
    requires Valid(d) && Valid(e) && Before(e, d) && OnDay(t, e)
    ensures Less(t, Iso(d))
  {
    var rest := t[10..];
    assert t == Iso(e) + rest;
    IsoMonotone(e, d);
    AppendKeepsLess(Iso(e), Iso(d), rest, []);
    assert Iso(d) + [] == Iso(d);
  }

  /** A later day sorts above the ISO date of the day after the picked one,
      the following day included, because the bare date is a proper prefix. */
  lemma StampOfLaterDay(d: Date, e: Date, t: string)
    requires Valid(d) && Valid(e) && d != MaxDate && Before(d, e) && OnDay(t, e)
    ensures Less(Iso(NextDay(d).value), t)
  {
    var next := NextDay(d).value;
    var rest := t[10..];
    assert t == Iso(e) + rest;
    NextDayIsSuccessor(d, e);
    if next == e {
      PrefixLess(Iso(next), rest);
    } else {
      IsoMonotone(next, e);
      AppendKeepsLess(Iso(next), Iso(e), [], rest);
      assert Iso(next) + [] == Iso(next);
    }
  }

  /** The upper bound is inclusive: a date string that is exactly the bare
      ISO form of the next day also passes a pick of `to` = `d`. */
  lemma BareNextDayKept(fromDate: Date, d: Date)
    requires Valid(fromDate) && Valid(d) && d != MaxDate && !Before(d, fromDate)
    ensures StampInRange(Iso(NextDay(d).value), NormalizeBounds(fromDate, d).value)
  {
    var next := NextDay(d).value;
    if fromDate != next {
      IsoMonotone(fromDate, next);
    }
  }

  /** Picking day `d` as both "from" and "to" keeps a timestamp exactly when
      it is a timestamp of day `d`. */
  lemma StampInPickedDay(d: Date, e: Date, t: string)
    requires Valid(d) && Valid(e) && d != MaxDate && OnDay(t, e)
    ensures StampInRange(t, NormalizeBounds(d, d).value) <==> e == d
  {
    var next := NextDay(d).value;
    if e == d {
      StampOfPickedDay(d, t);
    } else if Before(e, d) {
      StampOfEarlierDay(d, e, t);
      LessEqIffNotGreater(Iso(d), t);
    } else {
      StampOfLaterDay(d, e, t);
      LessEqIffNotGreater(t, Iso(next));
    }
  }

  /** Every row is a timestamp of the day listed beside it. */
  predicate Stamped(rows: seq<Row>, days: seq<Date>)
  {
    && |days| == |rows|
    && forall i :: 0 <= i < |rows| ==>
      Valid(days[i]) && rows[i].date.Some? && OnDay(rows[i].date.value, days[i])
  }

  /** Day-inclusive range: with "from" and "to" both on day `d`, the filter
      keeps exactly the rows stamped on day `d`, in their original order. */
  lemma PickedDayKeepsThatDay(rows: seq<Row>, days: seq<Date>, d: Date)
    requires Valid(d) && d != MaxDate && Stamped(rows, days)
    ensures NormalizeBounds(d, d).Success?
    ensures forall i :: 0 <= i < |rows| ==> (InDateRange(rows[i], NormalizeBounds(d, d).value) <==> days[i] == d)
    ensures FilterByDate(rows, NormalizeBounds(d, d).value)
         == Filter(rows, (row: Row) => row.date.Some? && |row.date.value| >= 10 && row.date.value[..10] == Iso(d))
  {
    var b := NormalizeBounds(d, d).value;
    forall i | 0 <= i < |rows|
      ensures InDateRange(rows[i], b) <==> days[i] == d
      ensures InDateRange(rows[i], b) <==> rows[i].date.value[..10] == Iso(d)
    {
      StampInPickedDay(d, days[i], rows[i].date.value);
      if rows[i].date.value[..10] == Iso(d) {
        IsoOrder(d, days[i]);
        Irreflexive(Iso(d));
        if Before(days[i], d) {
          IsoOrder(days[i], d);
        }
      }
    }
    FilterCongruent(rows, row => InDateRange(row, b),
                    (row: Row) => row.date.Some? && |row.date.value| >= 10 && row.date.value[..10] == Iso(d));
  }

  /** The default bounds sit around the ends of the table: "from" at or
      below the oldest timestamp, "to" above the newest. */
  lemma DefaultBoundsAroundEnds(rows: seq<Row>, days: seq<Date>)
    requires |rows| > 0 && Stamped(rows, days) && days[0] != MaxDate
    ensures NormalizeBounds(days[|rows| - 1], days[0]).Success?
    ensures LessEq(NormalizeBounds(days[|rows| - 1], days[0]).value.lower, rows[|rows| - 1].date.value)
    ensures LessEq(rows[0].date.value, NormalizeBounds(days[|rows| - 1], days[0]).value.upper)
  {
    var oldest := rows[|rows| - 1].date.value;
    assert oldest == Iso(days[|rows| - 1]) + oldest[10..];
    PrefixLess(Iso(days[|rows| - 1]), oldest[10..]);
    StampOfPickedDay(days[0], rows[0].date.value);
  }

  /** With the pickers left at their defaults (the days of the last and of
      the first row) a newest-first table passes the filter unchanged. */
  lemma DefaultPickKeepsAll(rows: seq<Row>, days: seq<Date>)
    requires |rows| > 0 && Stamped(rows, days) && NewestFirst(rows)
    requires days[0] != MaxDate
    ensures NormalizeBounds(days[|rows| - 1], days[0]).Success?
    ensures FilterByDate(rows, NormalizeBounds(days[|rows| - 1], days[0]).value) == rows
  {
    var b := NormalizeBounds(days[|rows| - 1], days[0]).value;
    DefaultBoundsAroundEnds(rows, days);
    var oldest, newest := rows[|rows| - 1].date.value, rows[0].date.value;
    forall i | 0 <= i < |rows| ensures InDateRange(rows[i], b) {
      var t := rows[i].date.value;
      assert LessEq(t, newest) && LessEq(oldest, t);
      LessEqTransitive(b.lower, oldest, t);
      LessEqTransitive(t, newest, b.upper);
    }
    FilterKeepsAll(rows, row => InDateRange(row, b));
  }

  /** A "to" day picked before the "from" day keeps no timestamp: the only
      string that can pass is the bare ISO "from" date itself. */
  lemma InvertedPickKeepsNoStamp(rows: seq<Row>, fromDate: Date, toDate: Date)
    requires Valid(fromDate) && Valid(toDate) && Before(toDate, fromDate)
    ensures NormalizeBounds(fromDate, toDate).Success?
    ensures forall row :: row in FilterByDate(rows, NormalizeBounds(fromDate, toDate).value) ==>
      row.date == Some(Iso(fromDate))
    ensures (forall i :: 0 <= i < |rows| && rows[i].date.Some? ==> |rows[i].date.value| != 10) ==>
      FilterByDate(rows, NormalizeBounds(fromDate, toDate).value) == []
  {
    assert toDate != MaxDate;
    var b := NormalizeBounds(fromDate, toDate).value;
    var next := NextDay(toDate).value;
    assert b.upper == Iso(next);
    NextDayIsSuccessor(toDate, fromDate);
    if next != fromDate {
      IsoMonotone(next, fromDate);
    }
    assert LessEq(b.upper, b.lower);
    forall i | 0 <= i < |rows| && InDateRange(rows[i], b) ensures rows[i].date == Some(b.lower) {
      var t := rows[i].date.value;
      LessEqTransitive(t, b.upper, b.lower);
      if t != b.lower {
        Asymmetric(b.lower, t);
      }
    }
    if forall i :: 0 <= i < |rows| && rows[i].date.Some? ==> |rows[i].date.value| != 10 {
      FilterKeepsNone(rows, row => InDateRange(row, b));
    }
  }

  // ---- the column/value filter (lines 44-51) ----

  /** `df.columns.tolist()` with `KEY_DATE` removed: the columns offered. */
  function SelectableColumns(): (cs: seq<string>)
    ensures forall c :: c in cs <==> c in Columns && c != DateColumn
    ensures |cs| == |Columns| - 1
  {
    RemoveFirst(Columns, DateColumn)
  }

  /** The column `c` as a list of cells. */
  function ColumnValues(rows: seq<Row>, c: string): (vs: seq<Option<string>>)
    ensures |vs| == |rows|
    ensures forall i :: 0 <= i < |rows| ==> vs[i] == Cell(rows[i], c)
  {
    seq(|rows|, i requires 0 <= i < |rows| => Cell(rows[i], c))
  }

  /** A value occurs in the column exactly when some row holds it there. */
  lemma ColumnValuesMembers(rows: seq<Row>, c: string)
    ensures forall v :: v in ColumnValues(rows, c) <==> exists i :: 0 <= i < |rows| && Cell(rows[i], c) == v
  {
    var col := ColumnValues(rows, c);
    forall v | v in col ensures exists i :: 0 <= i < |rows| && Cell(rows[i], c) == v {
      var i :| 0 <= i < |col| && col[i] == v;
      assert Cell(rows[i], c) == v;
    }
    forall v | exists i :: 0 <= i < |rows| && Cell(rows[i], c) == v ensures v in col {
      var i :| 0 <= i < |rows| && Cell(rows[i], c) == v;
      assert col[i] == v;
    }
  }

  /** `df[selected_column].unique()`: the values offered for column `c`. */
  function ValueChoices(rows: seq<Row>, c: string): (vs: seq<Option<string>>)
    ensures Distinct(vs)
    ensures forall v :: v in vs <==> exists i :: 0 <= i < |rows| && Cell(rows[i], c) == v
  {
    ColumnValuesMembers(rows, c);
    Unique(ColumnValues(rows, c))
  }

  /** `df[selected_column] == selected_value` for one row: a NaN equals nothing. */
  predicate Matches(row: Row, c: string, v: Option<string>)
  {
    v.Some? && Cell(row, c) == v
  }

  /** `df[df[selected_column] == selected_value]`, for a column the
      selectbox can offer. */
  function FilterByColumn(rows: seq<Row>, c: string, v: Option<string>): (r: Result<seq<Row>, Error>)
    ensures r.Failure? <==> c !in SelectableColumns()
    ensures r.Failure? ==> r.error == InvalidColumn(c)
    ensures r.Success? ==> forall row :: row in r.value <==> row in rows && v.Some? && Cell(row, c) == v
    ensures r.Success? ==> |r.value| <= |rows|
  {
    if c !in SelectableColumns() then Failure(InvalidColumn(c))
    else Success(Filter(rows, row => Matches(row, c, v)))
  }

  /** A row's mask entry is the comparison of its cell with the value. */
  lemma ColumnMask(rows: seq<Row>, c: string, v: Option<string>)
    ensures var idx := MaskPositions(rows, row => Matches(row, c, v));
      forall i :: 0 <= i < |rows| ==> (i in idx <==> v.Some? && Cell(rows[i], c) == v)
  {
    var p := row => Matches(row, c, v);
    forall i | 0 <= i < |rows| ensures i in MaskPositions(rows, p) <==> v.Some? && Cell(rows[i], c) == v {
      assert p(rows[i]) == (v.Some? && Cell(rows[i], c) == v);
    }
  }

  /** The view is the boolean-mask selection of the matching rows, in their
      original order. */
  lemma FilterByColumnIsMaskSelection(rows: seq<Row>, c: string, v: Option<string>)
    requires c in SelectableColumns()
    ensures var idx := MaskPositions(rows, row => Matches(row, c, v));
      && (forall i :: 0 <= i < |rows| ==> (i in idx <==> v.Some? && Cell(rows[i], c) == v))
      && (forall k, l :: 0 <= k < l < |idx| ==> idx[k] < idx[l])
      && |FilterByColumn(rows, c, v).value| == |idx|
      && (forall k :: 0 <= k < |idx| ==> FilterByColumn(rows, c, v).value[k] == rows[idx[k]])
  {
    var p := row => Matches(row, c, v);
    assert FilterByColumn(rows, c, v).value == Filter(rows, p);
    ColumnMask(rows, c, v);
    FilterSelectsMaskPositions(rows, p);
  }

  /** Filtering twice on the same column and value is filtering once. */
  lemma FilterByColumnIdempotent(rows: seq<Row>, c: string, v: Option<string>)
    requires c in SelectableColumns()
    ensures FilterByColumn(FilterByColumn(rows, c, v).value, c, v) == FilterByColumn(rows, c, v)
  {
    FilterIdempotent(rows, row => Matches(row, c, v));
  }

  /** Comparing with NaN is false on every row, so the mask keeps nothing. */
  lemma NaNMatchesNothing(rows: seq<Row>, c: string, v: Option<string>)
    requires v.None?
    ensures Filter(rows, row => Matches(row, c, v)) == []
  {
    FilterKeepsNone(rows, row => Matches(row, c, v));
  }

  /** Every offered value that is not NaN selects at least one row; NaN,
      which `unique()` also offers, selects none. */
  lemma ChoiceSelection(rows: seq<Row>, c: string, v: Option<string>)
    requires c in SelectableColumns() && v in ValueChoices(rows, c)
    ensures v.Some? ==> |FilterByColumn(rows, c, v).value| > 0
    ensures v.None? ==> FilterByColumn(rows, c, v).value == []
  {
    var p := row => Matches(row, c, v);
    assert FilterByColumn(rows, c, v).value == Filter(rows, p);
    if v.Some? {
      var i :| 0 <= i < |rows| && Cell(rows[i], c) == v;
      assert p(rows[i]);
      assert rows[i] in Filter(rows, p);
    } else {
      NaNMatchesNothing(rows, c, v);
    }
  }
}

=== FILE: lexorder.dfy ===
/**
 The order Python uses for `<`, `<=`, `>=` on `str` values: code points are
 compared position by position, and a proper prefix sorts before any longer
 string. The log pipeline compares raw timestamp strings against ISO dates
 with exactly this order, so everything the date filter promises rests on the
 lemmas below.
 */
module LexOrder {

  /** `a < b` on Python strings. */
  predicate Less(a: string, b: string)
    decreases |a|
  {
    |b| > 0 && (|a| == 0 || a[0] < b[0] || (a[0] == b[0] && Less(a[1..], b[1..])))
  }

  /** `a <= b` on Python strings. */
  predicate LessEq(a: string, b: string)
  {
    a == b || Less(a, b)
  }

  lemma {:induction false} Irreflexive(a: string)
    ensures !Less(a, a)
    decreases |a|
  {
    if |a| > 0 {
      Irreflexive(a[1..]);
    }
  }

  lemma {:induction false} Asymmetric(a: string, b: string)
    requires Less(a, b)
    ensures !Less(b, a)
    decreases |a|
  {
    if |a| > 0 && a[0] == b[0] {
      Asymmetric(a[1..], b[1..]);
    }
  }

  lemma {:induction false} Transitive(a: string, b: string, c: string)
    requires Less(a, b) && Less(b, c)
    ensures Less(a, c)
    decreases |a|
  {
    if |a| > 0 && a[0] == b[0] && b[0] == c[0] {
      Transitive(a[1..], b[1..], c[1..]);
    }
  }

  /** Any two strings are equal or one sorts strictly before the other. */
  lemma {:induction false} Total(a: string, b: string)
    ensures a == b || Less(a, b) || Less(b, a)
    decreases |a|
  {
    if |a| > 0 && |b| > 0 && a[0] == b[0] {
      Total(a[1..], b[1..]);
      if a[1..] == b[1..] {
        assert a == [a[0]] + a[1..] && b == [b[0]] + b[1..];
      }
    }
  }

  /** `<=` and `>` are complementary: exactly one of them holds. */
  lemma LessEqIffNotGreater(a: string, b: string)
    ensures LessEq(a, b) <==> !Less(b, a)
  {
    Total(a, b);
    Irreflexive(a);
    if Less(a, b) {
      Asymmetric(a, b);
    }
  }

  lemma LessEqTransitive(a: string, b: string, c: string)
    requires LessEq(a, b) && LessEq(b, c)
    ensures LessEq(a, c)
  {
    if Less(a, b) && Less(b, c) {
      Transitive(a, b, c);
    }
  }

  /** A string sorts strictly before every proper extension of it. */
  lemma {:induction false} PrefixLess(a: string, b: string)
    requires |b| > 0
    ensures Less(a, a + b)
    decreases |a|
  {
    if |a| > 0 {
      assert (a + b)[1..] == a[1..] + b;
      PrefixLess(a[1..], b);
    }
  }

  /** Strings of equal length that already differ keep their order whatever follows them. */
  lemma {:induction false} AppendKeepsLess(a: string, a': string, b: string, b': string)
    requires |a| == |a'| && Less(a, a')
    ensures Less(a + b, a' + b')
    decreases |a|
  {
    assert (a + b)[0] == a[0] && (a' + b')[0] == a'[0];
    if a[0] == a'[0] {
      assert (a + b)[1..] == a[1..] + b;
      assert (a' + b')[1..] == a'[1..] + b';
      AppendKeepsLess(a[1..], a'[1..], b, b');
    }
  }

  /** A shared prefix does not affect the comparison. */
  lemma {:induction false} CommonPrefix(p: string, a: string, b: string)
    ensures Less(p + a, p + b) <==> Less(a, b)
    decreases |p|
  {
    if |p| > 0 {
      assert (p + a)[1..] == p[1..] + a;
      assert (p + b)[1..] == p[1..] + b;
      CommonPrefix(p[1..], a, b);
    } else {
      assert p + a == a && p + b == b;
    }
  }
}

=== FILE: logtable.dfy ===
/**
 The access-log table after `pd.read_csv`: the six columns the dashboard
 keeps (streamlit_app.py, line 61) and the name fallback of line 63.
 Every cell is a string or missing (pandas NaN); no column is converted to
 another type.
 */
module LogTable {
  import opened Results
  import opened Seqs

  /** One access-log entry after the projection. */
  datatype Row = Row(
    date: Option<string>,
    name: Option<string>,
    action: Option<string>,
    trigger: Option<string>,
    state: Option<string>,
    autoUnlock: Option<string>)

  const DateColumn: string := "date"
  const NameColumn: string := "name"
  const ActionColumn: string := "action"

  /** The projection list `[KEY_DATE, KEY_TTVZ_MEMBER, KEY_NUKI_ACTION, 'trigger', 'state', 'autoUnlock']`. */
  const Columns: seq<string> := [DateColumn, NameColumn, ActionColumn, "trigger", "state", "autoUnlock"]

  /** `row[c]` for one of the kept columns; no other column is ever asked for. */
  function Cell(r: Row, c: string): Option<string>
  {
    if c == DateColumn then r.date
    else if c == NameColumn then r.name
    else if c == ActionColumn then r.action
    else if c == "trigger" then r.trigger
    else if c == "state" then r.state
    else if c == "autoUnlock" then r.autoUnlock
    else None
  }

  /** What `pd.read_csv` hands over: a header and one list of cells per record. */
  datatype Frame = Frame(header: seq<string>, records: seq<seq<Option<string>>>)

  /** The parser always yields one cell per header column. */
  predicate Rectangular(f: Frame)
  {
    forall i :: 0 <= i < |f.records| ==> |f.records[i]| == |f.header|
  }

  /** Position of the first column named `x`. */
  function IndexOf(s: seq<string>, x: string): (i: nat)
    requires x in s
    ensures i < |s| && s[i] == x && x !in s[..i]
  {
    if s[0] == x then 0
    else
      assert x in s[1..];
      var j := IndexOf(s[1..], x);
      assert s[..j + 1] == [s[0]] + s[1..][..j];
      j + 1
  }

  /** The kept columns the header lacks, in projection order. */
  function MissingColumns(header: seq<string>): seq<string>
  {
    Filter(Columns, c => c !in header)
  }

  function RecordToRow(header: seq<string>, rec: seq<Option<string>>): Row
    requires forall c :: c in Columns ==> c in header
    requires |rec| == |header|
  {
    Row(rec[IndexOf(header, DateColumn)],
        rec[IndexOf(header, NameColumn)],
        rec[IndexOf(header, ActionColumn)],
        rec[IndexOf(header, "trigger")],
        rec[IndexOf(header, "state")],
        rec[IndexOf(header, "autoUnlock")])
  }

  /** `df[[KEY_DATE, ..., 'autoUnlock']]`: keep the six columns, drop the
      rest, or fail with the list of absent ones (pandas' KeyError). */
  function Project(f: Frame): (r: Result<seq<Row>, Error>)
    requires Rectangular(f)
    ensures r.Success? <==> forall c :: c in Columns ==> c in f.header
    ensures r.Failure? ==> r.error.MissingColumns? && |r.error.names| > 0
    ensures r.Failure? ==> forall c :: c in r.error.names <==> c in Columns && c !in f.header
    ensures r.Success? ==> |r.value| == |f.records|
    ensures r.Success? ==> forall i, c :: 0 <= i < |f.records| && c in Columns ==>
      Cell(r.value[i], c) == f.records[i][IndexOf(f.header, c)]
  {
    var missing := MissingColumns(f.header);
    if |missing| > 0 then
      assert missing[0] in missing;
      Failure(Error.MissingColumns(missing))
    else
      Success(seq(|f.records|, i requires 0 <= i < |f.records| => RecordToRow(f.header, f.records[i])))
  }

  /** One row of `df[name].fillna(value=df.trigger)`. */
  function FillRow(r: Row): Row
  {
    if r.name.Some? then r else r.(name := r.trigger)
  }

  /** `df[KEY_TTVZ_MEMBER] = df[KEY_TTVZ_MEMBER].fillna(value=df.trigger)`:
      a missing name is replaced by the same row's trigger. */
  function FillName(rows: seq<Row>): (r: seq<Row>)
    ensures |r| == |rows|
    ensures forall i :: 0 <= i < |rows| ==> r[i] == rows[i].(name := r[i].name)
    ensures forall i :: 0 <= i < |rows| && rows[i].name.Some? ==> r[i].name == rows[i].name
    ensures forall i :: 0 <= i < |rows| && rows[i].name.None? ==> r[i].name == rows[i].trigger
  {
    seq(|rows|, i requires 0 <= i < |rows| => FillRow(rows[i]))
  }

  /** After the fallback a name is missing only where the trigger was missing too. */
  lemma FillNamePresence(rows: seq<Row>)
    ensures forall i :: 0 <= i < |rows| ==>
      (FillName(rows)[i].name.Some? <==> rows[i].name.Some? || rows[i].trigger.Some?)
  {
  }

  /** The fallback changes nothing the second time. */
  lemma FillNameIdempotent(rows: seq<Row>)
    ensures FillName(FillName(rows)) == FillName(rows)
  {
  }
}

=== FILE: pipeline.dfy ===
/**
 The body of `main()` once a file is uploaded (streamlit_app.py, lines
 59-104), with every widget replaced by the value it returns: the two
 picked dates, the picked column and value, and the timezone conversion
 `dayKey`. Each stage either hands a new table to the next or raises, and
 the first raise ends the run.
 */
module Pipeline {
  import opened Results
  import opened Calendar
  import opened Seqs
  import opened LogTable
  import opened Filters
  import opened Aggregate

  /** What the page shows: the bounds in its headings, the date-filtered
      table, the column-filtered view and the two aggregates. */
  datatype Report = Report(
    bounds: Bounds,
    table: seq<Row>,
    shown: seq<Row>,
    byName: Summary,
    byDate: Summary)

  /** After the fallback a name is missing only where both the name cell
      and the trigger cell of the record were missing. */
  lemma FallbackNames(f: Frame)
    requires Rectangular(f) && Project(f).Success?
    ensures forall i :: 0 <= i < |f.records| && FillName(Project(f).value)[i].name.None? ==>
      f.records[i][IndexOf(f.header, NameColumn)].None? && f.records[i][IndexOf(f.header, "trigger")].None?
  {
    var projected := Project(f).value;
    forall i | 0 <= i < |f.records| && FillName(projected)[i].name.None?
      ensures f.records[i][IndexOf(f.header, NameColumn)].None? && f.records[i][IndexOf(f.header, "trigger")].None?
    {
      assert Cell(projected[i], NameColumn) == f.records[i][IndexOf(f.header, NameColumn)];
      assert Cell(projected[i], "trigger") == f.records[i][IndexOf(f.header, "trigger")];
    }
  }

  /** Lines 60-63: project onto the six columns, then fall back from a
      missing name to the trigger. */
  function Ingest(f: Frame): (r: Result<seq<Row>, Error>)
    requires Rectangular(f)
    ensures r.Failure? <==> Project(f).Failure?
    ensures r.Failure? ==> r.error.MissingColumns?
    ensures r.Success? ==> |r.value| == |f.records|
    ensures r.Success? ==> forall i :: 0 <= i < |r.value| && r.value[i].name.None? ==>
      f.records[i][IndexOf(f.header, NameColumn)].None? && f.records[i][IndexOf(f.header, "trigger")].None?
    ensures r.Success? ==> r.value == FillName(Project(f).value)
  {
    match Project(f)
    case Failure(e) => Failure(e)
    case Success(projected) =>
      FallbackNames(f);
      Success(FillName(projected))
  }

  /** Lines 67 and 18-30: default bounds, the +1 day, the range filter. */
  function SelectDateRange(rows: seq<Row>, fromDate: Date, toDate: Date): (r: Result<(Bounds, seq<Row>), Error>)
    requires Valid(fromDate) && Valid(toDate)
    ensures r.Failure? <==> |rows| == 0 || toDate == MaxDate
    ensures r.Failure? ==> r.error == (if |rows| == 0 then EmptyTable else DateOverflow)
    ensures r.Success? ==> r.value.0.lower == Iso(fromDate)
    ensures r.Success? ==> |r.value.1| <= |rows|
    ensures r.Success? ==> forall row :: row in r.value.1 <==> row in rows && InDateRange(row, r.value.0)
    ensures r.Success? ==> r.value.0 == NormalizeBounds(fromDate, toDate).value
    ensures r.Success? ==> r.value.1 == FilterByDate(rows, r.value.0)
  {
    if DefaultDates(rows).Failure? then Failure(EmptyTable)
    else
      match NormalizeBounds(fromDate, toDate)
      case Failure(e) => Failure(e)
      case Success(b) => Success((b, FilterByDate(rows, b)))
  }

  /** The whole run: ingest, date range, column view, both aggregates. */
  function Run(f: Frame, fromDate: Date, toDate: Date, column: string, value: Option<string>,
               dayKey: string -> Option<string>): (r: Result<Report, Error>)
    requires Rectangular(f) && Valid(fromDate) && Valid(toDate)
    ensures Project(f).Failure? ==> r.Failure? && r.error.MissingColumns?
    ensures Project(f).Success? && |f.records| == 0 ==> r == Failure(EmptyTable)
    ensures r.Failure? && r.error == DateOverflow ==> toDate == MaxDate
    ensures r.Success? ==> r.value.bounds.lower == Iso(fromDate) && |r.value.table| <= |f.records|
    ensures r.Success? ==> forall row :: row in r.value.table ==> InDateRange(row, r.value.bounds)
    ensures r.Success? ==> forall row :: row in r.value.table ==> row.date.Some?
    ensures r.Success? ==> Ingest(f).Success? && r.value.table == FilterByDate(Ingest(f).value, r.value.bounds)
    ensures r.Success? ==> SelectDateRange(Ingest(f).value, fromDate, toDate) == Success((r.value.bounds, r.value.table))
    ensures r.Success? ==> FilterByColumn(r.value.table, column, value) == Success(r.value.shown)
    ensures r.Success? ==> r.value.byName == NameSummary(r.value.table)
    ensures r.Success? ==> DateSummary(r.value.table, dayKey) == Success(r.value.byDate)
    ensures r.Success? ==> forall row :: row in r.value.shown ==> row in r.value.table
    ensures r.Success? ==> r.value.byName.totalActions <= |r.value.table|
    ensures r.Success? ==> r.value.byDate.totalActions == Count(r.value.table, HasAction)
  {
    match Ingest(f)
    case Failure(e) => Failure(e)
    case Success(rows) =>
      match SelectDateRange(rows, fromDate, toDate)
      case Failure(e) => Failure(e)
      case Success((b, table)) =>
        match FilterByColumn(table, column, value)
        case Failure(e) => Failure(e)
        case Success(shown) =>
          match DateSummary(table, dayKey)
          case Failure(e) => Failure(e)
          case Success(byDate) => Success(Report(b, table, shown, NameSummary(table), byDate))
  }

  /** A run fails only for one of its five causes, and succeeds whenever
      none of them is present. */
  lemma RunOutcome(f: Frame, fromDate: Date, toDate: Date, column: string, value: Option<string>,
                   dayKey: string -> Option<string>)
    requires Rectangular(f) && Valid(fromDate) && Valid(toDate)
    ensures var r := Run(f, fromDate, toDate, column, value, dayKey);
      r.Failure? ==>
        || (r.error.MissingColumns? && Project(f).Failure?)
        || (r.error == EmptyTable && Project(f).Success? && |f.records| == 0)
        || (r.error == DateOverflow && toDate == MaxDate)
        || (r.error == InvalidColumn(column) && column !in SelectableColumns())
        || (r.error.InvalidTimestamp? && Ingest(f).Success? && toDate != MaxDate &&
            DateSummary(FilterByDate(Ingest(f).value, NormalizeBounds(fromDate, toDate).value), dayKey).Failure?)
    ensures Run(f, fromDate, toDate, column, value, dayKey).Success? <==>
      && Project(f).Success? && |f.records| > 0 && toDate != MaxDate
      && column in SelectableColumns()
      && DateSummary(FilterByDate(Ingest(f).value, NormalizeBounds(fromDate, toDate).value), dayKey).Success?
  {
    match Ingest(f)
    case Failure(_) =>
    case Success(rows) =>
      match SelectDateRange(rows, fromDate, toDate)
      case Failure(_) =>
      case Success((b, table)) =>
        assert b == NormalizeBounds(fromDate, toDate).value;
        assert table == FilterByDate(rows, b);
  }
}

=== FILE: results.dfy ===
/**
 Missing values and failures of the log pipeline.

 `Option` stands for a pandas cell that may be NaN: empty CSV cells arrive
 as NaN, and NaN compares unequal to everything, itself included.
 `Result` carries the exceptions the pipeline can raise instead of a table.
 */
module Results {

  datatype Option<+T> = None | Some(value: T)

  datatype Result<+T, +E> = Success(value: T) | Failure(error: E)

  /** The exceptions raised along the pipeline, one per source of failure. */
  datatype Error =
    | MissingColumns(names: seq<string>)  // KeyError from the column projection
    | EmptyTable                          // KeyError from `.loc[[len(df)-1, 0]]` on no rows
    | DateOverflow                        // OverflowError from `date + timedelta(days=1)`
    | InvalidColumn(column: string)       // a column the selectbox never offers
    | InvalidTimestamp(stamp: string)     // a value `pd.to_datetime` cannot parse
}

=== FILE: seqs.dfy ===
/**
 Sequence operations the table stages are built from: boolean-mask
 selection (`df[mask]`), first-seen de-duplication (`Series.unique()`) and
 `list.remove`.
 */
module Seqs {

  /** `s[mask]` for the mask `p` evaluated row by row: the rows where `p`
      holds, in their original order. */
  function Filter<T(!new)>(s: seq<T>, p: T -> bool): (r: seq<T>)
    ensures |r| <= |s|
    ensures forall x :: x in r <==> x in s && p(x)
  {
    if |s| == 0 then []
    else Filter(s[..|s| - 1], p) + (if p(s[|s| - 1]) then [s[|s| - 1]] else [])
  }

  /** The positions where the mask is true, in increasing order. */
  function MaskPositions<T(!new)>(s: seq<T>, p: T -> bool): (idx: seq<nat>)
    ensures forall k :: 0 <= k < |idx| ==> idx[k] < |s| && p(s[idx[k]])
    ensures forall i :: 0 <= i < |s| && p(s[i]) ==> i in idx
    ensures forall k, l :: 0 <= k < l < |idx| ==> idx[k] < idx[l]
  {
    if |s| == 0 then []
    else MaskPositions(s[..|s| - 1], p) + (if p(s[|s| - 1]) then [|s| - 1] else [])
  }

  /** `Filter` is exactly the order-preserving selection of the positions
      where `p` holds: its k-th element is the row at the k-th such position. */
  lemma {:induction false} FilterSelectsMaskPositions<T(!new)>(s: seq<T>, p: T -> bool)
    ensures |Filter(s, p)| == |MaskPositions(s, p)|
    ensures forall k :: 0 <= k < |Filter(s, p)| ==> Filter(s, p)[k] == s[MaskPositions(s, p)[k]]
  {
    if |s| > 0 {
      var init := s[..|s| - 1];
      var r0, idx0 := Filter(init, p), MaskPositions(init, p);
      FilterSelectsMaskPositions(init, p);
      var r, idx := Filter(s, p), MaskPositions(s, p);
      assert r == r0 + (if p(s[|s| - 1]) then [s[|s| - 1]] else []);
      assert idx == idx0 + (if p(s[|s| - 1]) then [|s| - 1] else []);
      forall k | 0 <= k < |r| ensures r[k] == s[idx[k]] {
        if k < |r0| {
          assert r[k] == r0[k] == init[idx0[k]];
          assert idx[k] == idx0[k];
        }
      }
    }
  }

  /** Filtering is a homomorphism on concatenation. */
  lemma {:induction false} FilterAppend<T(!new)>(a: seq<T>, b: seq<T>, p: T -> bool)
    ensures Filter(a + b, p) == Filter(a, p) + Filter(b, p)
    decreases |b|
  {
    if |b| == 0 {
      assert a + b == a;
    } else {
      var b' := b[..|b| - 1];
      assert (a + b)[..|a + b| - 1] == a + b';
      assert (a + b)[|a + b| - 1] == b[|b| - 1];
      FilterAppend(a, b', p);
    }
  }

  /** Applying the same mask predicate twice selects the same rows. */
  lemma {:induction false} FilterIdempotent<T(!new)>(s: seq<T>, p: T -> bool)
    ensures Filter(Filter(s, p), p) == Filter(s, p)
  {
    if |s| > 0 {
      var init := s[..|s| - 1];
      var last := if p(s[|s| - 1]) then [s[|s| - 1]] else [];
      FilterIdempotent(init, p);
      FilterAppend(Filter(init, p), last, p);
      assert Filter(last, p) == last by {
        if |last| == 1 {
          assert last[..0] == [];
        }
      }
    }
  }

  /** A mask that is true on every row keeps the whole table. */
  lemma {:induction false} FilterKeepsAll<T(!new)>(s: seq<T>, p: T -> bool)
    requires forall i :: 0 <= i < |s| ==> p(s[i])
    ensures Filter(s, p) == s
  {
    if |s| > 0 {
      FilterKeepsAll(s[..|s| - 1], p);
      assert s[..|s| - 1] + [s[|s| - 1]] == s;
    }
  }

  /** A mask that is false on every row keeps nothing. */
  lemma FilterKeepsNone<T(!new)>(s: seq<T>, p: T -> bool)
    requires forall i :: 0 <= i < |s| ==> !p(s[i])
    ensures Filter(s, p) == []
  {
  }

  /** Two masks that agree on every row select the same rows. */
  lemma {:induction false} FilterCongruent<T(!new)>(s: seq<T>, p: T -> bool, q: T -> bool)
    requires forall i :: 0 <= i < |s| ==> p(s[i]) == q(s[i])
    ensures Filter(s, p) == Filter(s, q)
  {
    if |s| > 0 {
      FilterCongruent(s[..|s| - 1], p, q);
    }
  }

  predicate Distinct<T(==)>(s: seq<T>)
  {
    forall i, j :: 0 <= i < j < |s| ==> s[i] != s[j]
  }

  /** `Series.unique()`: every value of the column, once. */
  function Unique<T(==,!new)>(s: seq<T>): (r: seq<T>)
    ensures Distinct(r)
    ensures forall x :: x in r <==> x in s
    ensures |r| <= |s|
  {
    if |s| == 0 then []
    else
      var u := Unique(s[..|s| - 1]);
      if s[|s| - 1] in u then u else u + [s[|s| - 1]]
  }

  /** `list.remove(x)`: drop one occurrence of `x` (Python raises
      ValueError when there is none). */
  function RemoveFirst<T(==)>(s: seq<T>, x: T): (r: seq<T>)
    requires x in s
    ensures |r| == |s| - 1
    ensures multiset(r) == multiset(s) - multiset{x}
  {
    assert s == [s[0]] + s[1..];
    if s[0] == x then s[1..] else [s[0]] + RemoveFirst(s[1..], x)
  }

  /** Number of elements satisfying `p`. */
  function Count<T(!new)>(s: seq<T>, p: T -> bool): (n: nat)
    ensures n <= |s|
  {
    if |s| == 0 then 0
    else Count(s[..|s| - 1], p) + (if p(s[|s| - 1]) then 1 else 0)
  }
}
